=== FILE: README.md ===
# Smart-home IoT workload and dataset labelling, modelled in Dafny

This project models the two pieces of logic that define the smart-home
experiment's workload and how its traffic is labelled.

- **The scenario's workload bookkeeping** (`simulation/iot-home.cc`, `main()`).
  Six device classes are populated in a fixed order: Camera, Thermo, Light,
  Assistant, TV, Laptop. Each instance gets the next Wi-Fi station, the port
  `1000·(k+1) + i` truncated to 16 bits, a destination among the wired
  interfaces, and a sink on the class's server. It also gets a traffic
  profile and a start and stop time. Starts of the four UDP classes are drawn
  from one uniform stream; TVs and laptops start at fixed instants. With the
  simulator calls stripped away, this is the pure function `Scenario.Flows`
  from (populations, duration, draws) to a sequence of `FlowAssignment`
  records. `Scenario.BuildScenario` computes the same result with the
  source's running station index and stream cursor.
- **The dataset builder** (`analysis/create_dataset.py`). It labels ports by
  range (`Labels.GetLabel`) and picks the port a packet is labelled by
  (dport, then sport, then 0). It groups keyed packets into flows in
  insertion order (`FlowTable.Group`) and orders each flow by capture time.
  It slices each flow into five-second windows (`Windows.WindowRows`) and
  emits one row per non-empty window (`Dataset.BuildDataset`).
- **A cross-file link** (`Labelling`). Every port the scenario allocates is
  labelled with its own class, except Light. Light's range 3000–3999 has no
  case in the labelling, so light traffic is labelled Unknown and never
  reaches the dataset.

Modules: `Optional`, `Catalog` (class table, ports, servers), `Scenario`,
`ScenarioProperties`, `Labels`, `FlowTable`, `TimeOrder`, `Windows`,
`Dataset`, `Labelling`.

Modelling choices:

- **Random stream.** The uniform stream is a `seq<real>` of values in [0, 1).
  `UniformRandomVariable::GetValue(lo, hi)` is modelled as `lo + u·(hi − lo)`
  (`Scenario.Scale`).
- **Timestamps.** Capture times are integers in microseconds, the
  resolution of a pcap record, so a window is 5 000 000 units wide.
- **Bit rate.** The bit rate is an exact real. Float rounding is not
  modelled.

The model follows the script as written:

- TVs start at exactly 1.0 s and laptops at exactly 2.0 s, with no
  per-instance stagger.
- The catalog is not validated: a zero population is accepted.
- No port budget is checked. A port past 65535 wraps around
  (`Catalog.PortOf`); ranges of different classes overlap once a population
  reaches 1000.

## Model

| member | source | states |
|---|---|---|
| Catalog.ProfileOf | simulation/iot-home.cc:84-153 | on/off sources are exactly the UDP classes, with positive rate and size; bulk senders are unlimited (MaxBytes 0) with 1500-byte sends |
| Catalog.StartRuleOf | simulation/iot-home.cc:90-155 | the UDP classes draw their start from a window inside [0, 8); the TCP classes start at a fixed instant in [1, 2] |
| Catalog.PortOf | simulation/iot-home.cc:82-83 | the port is the 16-bit truncation of base + i: it is below 2^16 and congruent to base + i modulo 2^16; below the wrap it equals base + i, and below 1000 it lies in the class's thousand-wide range |
| Catalog.PortInjective | simulation/iot-home.cc:82-83 | two instances of one class with ordinals below 65536 get the same port only if they are the same instance |
| Catalog.PortRangesDisjoint | simulation/iot-home.cc:83-150 | below 1000 instances, ports of different classes never coincide |
| Catalog.SinkServerInjective | simulation/iot-home.cc:92-158 | distinct classes install their sinks on distinct servers |
| Catalog.BasePort | simulation/iot-home.cc:83-150 | class k's ports start at 1000·(k+1): 1000, 2000, …, 6000 in the order of the class loops (lines 83, 96, 109, 122, 137, 150) |
| Catalog.SinkServer | simulation/iot-home.cc:92-158 | a class's sinks sit on server k, where k is the class's position in the loop order (`serverNodes.Get(k)` at lines 92, 105, 118, 131, 145, 158) |
| Catalog.TargetInterface | simulation/iot-home.cc:63-72 | the wired interface a class targets belongs to the server node holding that class's sinks, because the wired container is the access point followed by the servers |
| Scenario.Scale | simulation/iot-home.cc:90 | a unit draw scaled to [lo, hi) stays in [lo, hi) |
| Scenario.OffsetsAtEnd | simulation/iot-home.cc:31 | the station offsets end at the number of stations created, and the draw offsets end at cameras + thermostats + lights + assistants |
| Scenario.Flow | simulation/iot-home.cc:82-93 | the flow of instance i of class k: station offset(k) + i, port PortOf, target and sink on the same server, a draw exactly for jittered classes at index drawOffset(k) + i whose value, scaled to the class window, is the start; otherwise the class's fixed instant; a stop at the duration and a sink start at 0 |
| Scenario.SimulatorStop | simulation/iot-home.cc:164 | the simulator stops strictly after the application stop time |
| Scenario.BuildClass | simulation/iot-home.cc:82-93 | one class loop yields exactly that class's flows and leaves the station index and the stream cursor at the next class's offsets |
| Scenario.BuildScenario | simulation/iot-home.cc:78-159 | the six loops with a shared running station index and stream cursor produce exactly the workload `Flows`, one flow per station, and consume exactly cameras + thermostats + lights + assistants draws |
| ScenarioProperties.StationsGapFree | simulation/iot-home.cc:79-159 | there are as many flows as stations created, and flow j runs on station j: indices are gap-free and never repeat |
| ScenarioProperties.ClassOrder | simulation/iot-home.cc:79-159 | instance i of the k-th class in the order Camera, Thermo, Light, Assistant, TV, Laptop sits at station offset(k) + i |
| ScenarioProperties.TargetIsListener | simulation/iot-home.cc:63-158 | every source of class k targets wired interface k+1 and its sink is on server k; that interface belongs to the server holding the sink |
| ScenarioProperties.ListenerPair | simulation/iot-home.cc:82-158 | two flows on distinct stations never share a (sink server, port) pair while each population fits the 16-bit port space |
| ScenarioProperties.ListenersUnique | simulation/iot-home.cc:82-158 | no two flows share a (sink server, port) pair while each population fits the 16-bit port space |
| ScenarioProperties.PortPair | simulation/iot-home.cc:83-150 | below 1000 instances per class, two flows on distinct stations have distinct ports |
| ScenarioProperties.PortsDistinct | simulation/iot-home.cc:83-150 | below 1000 instances per class, each port lies in its class range and all ports are pairwise distinct |
| ScenarioProperties.StartWindows | simulation/iot-home.cc:90-155 | Camera starts in [0,2), Thermo and Light in [0,5), Assistant in [2,8); every TV at exactly 1.0 and every Laptop at exactly 2.0 |
| ScenarioProperties.ProfilesByClass | simulation/iot-home.cc:84-153 | the protocol and the rate, size and on/off laws, or bulk parameters, of every flow, class by class |
| ScenarioProperties.Timeline | simulation/iot-home.cc:90-164 | every sink starts at 0 and every source stops at the duration; once the duration is at least 8 s, sink start <= start < stop < simulator stop |
| ScenarioProperties.DrawOrder | simulation/iot-home.cc:78-129 | reading the consumed draw indices off the flows in station order gives 0, 1, ..., N-1 with N = cameras + thermostats + lights + assistants, and each such flow's start is its draw scaled to its class's window; exactly the TV and Laptop flows consume none |
| ScenarioProperties.StreamOnlyMovesStarts | simulation/iot-home.cc:78-159 | a different stream changes only jittered start times; streams that agree on the consumed prefix give identical workloads |
| ScenarioProperties.DefaultScenario | simulation/iot-home.cc:15-21 | the configured scenario has 42 flows on 42 stations and consumes 36 draws; every flow stops at 120 s after it starts, and the simulator stops at 121 s |
| Labels.GetLabel | analysis/create_dataset.py:6-12 | a port is labelled exactly when it lies in [1000,3000) or [4000,7000); the label is then the class whose thousand-wide range holds the port, and never Light |
| Labels.PickPort | analysis/create_dataset.py:47-52 | the picked port is 0 or in [1000,7000); it is dport when dport is in range, else sport when sport is in range, else 0 |
| Labels.ProtoAndPort | analysis/create_dataset.py:43-52 | a TCP header gives protocol TCP and a UDP header protocol UDP, each with the dport-first picked port; any other transport gives the empty protocol and port 0 |
| Labels.KeyOf | analysis/create_dataset.py:41-58 | a packet gets a key exactly when it is IP and its picked port has a known label; the key holds its source address, the picked port (its dport whenever the dport is in [1000,7000), else its sport), that port's label, and TCP for a TCP segment or UDP for a UDP datagram |
| FlowTable.Append | analysis/create_dataset.py:56-58 | appending a packet under a key extends that key's list by the packet and leaves every other key's list unchanged |
| FlowTable.AppendKeys | analysis/create_dataset.py:56-57 | appending adds the packet's key to the table's keys and no other key |
| FlowTable.AppendTotal | analysis/create_dataset.py:56-58 | appending grows the table by exactly one packet |
| FlowTable.AppendKeepsDistinct | analysis/create_dataset.py:57 | a key is created only when absent, so keys stay distinct |
| FlowTable.Group | analysis/create_dataset.py:41-58 | every key's list holds exactly the packets with that key, in capture order; keys are distinct and are exactly the keys the packets carry; no list is empty; the table holds as many packets as carry a key |
| FlowTable.GroupEntries | analysis/create_dataset.py:54-58 | each grouped entry holds exactly its key's packets, and its key has a known label equal to its port's label over TCP or UDP |
| TimeOrder.InsertByTime | analysis/create_dataset.py:62 | inserting into a time-ordered list keeps it ordered and adds exactly that packet |
| TimeOrder.SortByTime | analysis/create_dataset.py:62 | the result is time-ordered and a permutation of the input |
| Windows.GetFeatures | analysis/create_dataset.py:14-21 | None exactly for an empty window; otherwise packet_count is the window length and the byte total is the sum of the packet lengths |
| Windows.FeatureValues | analysis/create_dataset.py:17-27 | duration is last minus first capture time, 0 below two packets and non-negative on ordered windows; bitrate is 0 unless duration > 0, and then bitrate·duration = 8·bytes·10^6 |
| Windows.WindowCount | analysis/create_dataset.py:63-66 | the number of loop turns: no window when last <= first, otherwise the least n whose bound start + 5 s·n reaches the last time |
| Windows.Between | analysis/create_dataset.py:67 | a packet is in the window exactly when it is in the flow and its time lies in [lo, hi) |
| Windows.BetweenCount | analysis/create_dataset.py:67 | the window holds each in-range packet as many times as the flow does, and no other packet |
| Windows.EmitWindow | analysis/create_dataset.py:69-74 | a row is emitted exactly when the window holds at least one packet, and it is that window's row |
| Windows.WindowRows | analysis/create_dataset.py:62-75 | the cursor loop `while curr < end` with `curr += 5` emits exactly the rows `FlowRows`: one per non-empty window [start+5j, start+5j+5) |
| Windows.BetweenSplit | analysis/create_dataset.py:67 | adjacent half-open windows share no packet, and their multisets of packets add up to that of their union, so their sizes add up too |
| Windows.RowsCarryKey | analysis/create_dataset.py:69-74 | every emitted row carries its flow's label, protocol and port and counts at least one packet |
| Windows.RowsDurationNonNegative | analysis/create_dataset.py:62-70 | since the flow is sorted before windowing, every window is time-ordered and every row's duration is non-negative |
| Windows.LastBound | analysis/create_dataset.py:63-66 | the last window bound reaches the last capture time, and equals it exactly when the span is a multiple of 5 s |
| Windows.CountedPackets | analysis/create_dataset.py:62-75 | the rows of an ordered flow count every packet once; the packets at the last timestamp are dropped exactly when last − first is a multiple of 5 s |
| Windows.SingleTimestampNoRows | analysis/create_dataset.py:63-66 | a flow whose packets all share one timestamp, including a single-packet flow, yields no rows |
| Dataset.DatasetRows | analysis/create_dataset.py:41-75 | every dataset row has a known, non-Light label equal to its port's label, the TCP or UDP protocol, at least one packet and a non-negative duration; the rows count no more packets than carry a key |
| Labelling.LabelRecoversClass | analysis/create_dataset.py:6-12 | for an ordinal below 1000, the label of a class's allocated port is that class, except Light, which alone is labelled Unknown |
| Labelling.ScenarioLabels | analysis/create_dataset.py:6-12 | with populations below 1000, every scenario flow's port is labelled with its class, lights excepted |
| Labelling.FlowPacketsKeyed | analysis/create_dataset.py:43-58 | both directions of a flow whose other port is outside [1000,7000) are keyed by the flow's port, class label and protocol; light packets get no key |
| Labelling.ScenarioFlowsKeyed | simulation/iot-home.cc:82-158 | every scenario flow uses its class's protocol and a port in its class range, the premises of FlowPacketsKeyed |

## Left out

- Simulator engine calls are not modelled, because they are calls into a library whose behaviour is not visible here. This covers the Wi-Fi standard, PHY and propagation settings, mobility, CSMA attributes, the internet stack, routing, pcap enabling and `Simulator::Run`/`Destroy`.
- IPv4 address arithmetic is not modelled. Only the order of the wired container, [AP, server0..server5], is kept; it is enough to relate a destination interface to its server.
- The random number generator (`RngSeedManager`, `UniformRandomVariable`) is not modelled. Draws are an input sequence of unit values; seeding and run number are outside the model.
- On/off period laws are carried as tagged data (`Catalog.Distribution`), because sampling them belongs to the simulator.
- Command-line parsing is not modelled, because no options are registered. Populations and duration are parameters, and `DefaultPopulations`/`DefaultDuration` hold the script's values.
- Scenario.Flows: excludes populations whose sum reaches 2^32. That sum is the 32-bit station count, and the script would then index past its station container.
- In create_dataset.py, pcap reading, file globbing, CSV writing and console output are not modelled, because they are I/O.
- Windows.GetFeatures: does not compute the mean and standard deviation of sizes or inter-arrival times, because they are floating-point statistics. The bit rate is exact, not rounded to a float.
- Windows.WindowRows: the cursor advances by exact integer steps. Rounding in the source's accumulating float `curr += 5.0` is not modelled.
- TimeOrder.SortByTime: proves ordering and permutation but not stability. Stability does not affect the modelled features, which depend only on the window's count, byte total and first and last times.
- Dataset.DatasetRows: bounds the packets counted by the rows by the keyed packets. The exact per-flow count is `Windows.CountedPackets`.
- analysis/visualise_dataset.py is not modelled, because it only plots and prints.

=== FILE: catalog.dfy ===
/** Shared optional value, used where the source returns None or has no value. */
module Optional {
  datatype Option<+T> = None | Some(value: T)
}

/**
  The static description of the six device classes of the smart-home
  scenario: their order, transport protocol, traffic profile, start rule,
  port range and server.  Everything here is a constant of the scenario
  script; nothing is mutated.
 */
module Catalog {

  datatype DeviceClass = Camera | Thermo | Light | Assistant | TV | Laptop

  /** The order in which the scenario runs its six per-class loops. */
  const Classes: seq<DeviceClass> := [Camera, Thermo, Light, Assistant, TV, Laptop]

  /** The position of a class in `Classes`; also the index of its server. */
  function Index(c: DeviceClass): (k: nat)
    ensures k < |Classes| && Classes[k] == c
  {
    match c
    case Camera => 0
    case Thermo => 1
    case Light => 2
    case Assistant => 3
    case TV => 4
    case Laptop => 5
  }

  datatype Protocol = Udp | Tcp

  /** An on/off period law, carried as tagged data; its sampling belongs to the simulator. */
  datatype Distribution =
    | Constant(value: real)
    | Uniform(min: real, max: real)
    | Exponential(mean: real)

  /** The application installed on a station: an on/off UDP source or an unlimited TCP bulk sender. */
  datatype TrafficProfile =
    | OnOff(rateBps: nat, packetSize: nat, onTime: Distribution, offTime: Distribution)
    | BulkSend(maxBytes: nat, sendSize: nat)

  /** How a source's start time is chosen: a uniform draw from [lo, hi) or a fixed instant. */
  datatype StartRule = Jittered(lo: real, hi: real) | Fixed(at: real)

  function ProtocolOf(c: DeviceClass): Protocol
  {
    if c in {TV, Laptop} then Tcp else Udp
  }

  /** The traffic profile of a class; on/off sources are exactly the UDP ones. */
  function ProfileOf(c: DeviceClass): (t: TrafficProfile)
    ensures t.OnOff? <==> ProtocolOf(c) == Udp
    ensures t.OnOff? ==> t.rateBps > 0 && t.packetSize > 0
    ensures t.BulkSend? ==> t.maxBytes == 0 && t.sendSize == 1500
  {
    match c
    case Camera => OnOff(1_000_000, 1000, Constant(1.0), Constant(0.0))
    case Thermo => OnOff(1_000, 50, Constant(0.5), Uniform(20.0, 60.0))
    case Light => OnOff(1_000, 50, Constant(0.1), Exponential(120.0))
    case Assistant => OnOff(128_000, 200, Uniform(2.0, 5.0), Exponential(60.0))
    case TV => BulkSend(0, 1500)
    case Laptop => BulkSend(0, 1500)
  }

  /** The start rule of a class: the UDP classes draw from a window, the bulk senders start at a fixed instant. */
  function StartRuleOf(c: DeviceClass): (s: StartRule)
    ensures s.Jittered? <==> ProtocolOf(c) == Udp
    ensures s.Jittered? ==> 0.0 <= s.lo < s.hi <= 8.0
    ensures s.Fixed? ==> 1.0 <= s.at <= 2.0
  {
    match c
    case Camera => Jittered(0.0, 2.0)
    case Thermo => Jittered(0.0, 5.0)
    case Light => Jittered(0.0, 5.0)
    case Assistant => Jittered(2.0, 8.0)
    case TV => Fixed(1.0)
    case Laptop => Fixed(2.0)
  }

  /** Whether instances of the class consume a value of the shared uniform stream. */
  predicate Draws(c: DeviceClass)
  {
    StartRuleOf(c).Jittered?
  }

  /** Ports are held in 16 bits; the sum `base + i` is truncated to that width. */
  const PortSpace: nat := 0x1_0000

  /** Width of the port range reserved per class. */
  const ClassPortRange: nat := 1000

  function BasePort(c: DeviceClass): (b: nat)
    ensures b == ClassPortRange * (Index(c) + 1)
  {
    match c
    case Camera => 1000
    case Thermo => 2000
    case Light => 3000
    case Assistant => 4000
    case TV => 5000
    case Laptop => 6000
  }

  /** The port of instance `i` of class `c`: the class base plus the ordinal, truncated to 16 bits. */
  function PortOf(c: DeviceClass, i: nat): (port: nat)
    ensures port < PortSpace && (BasePort(c) + i - port) % PortSpace == 0
    ensures i < PortSpace - BasePort(c) ==> port == BasePort(c) + i
    ensures i < ClassPortRange ==> BasePort(c) <= port < BasePort(c) + ClassPortRange
  {
    (BasePort(c) + i) % PortSpace
  }

  /** The ports of one class are pairwise distinct as long as the population fits the 16-bit space. */
  lemma PortInjective(c: DeviceClass, i: nat, j: nat)
    requires i < PortSpace && j < PortSpace
    requires PortOf(c, i) == PortOf(c, j)
    ensures i == j
  {
    var a, b := BasePort(c) + i, BasePort(c) + j;
    var qa, qb := a / PortSpace, b / PortSpace;
    assert a == PortSpace * qa + a % PortSpace;
    assert b == PortSpace * qb + b % PortSpace;
    assert a - b == PortSpace * (qa - qb);
  }

  /** Below 1000 instances per class, the class port ranges are disjoint. */
  lemma PortRangesDisjoint(c: DeviceClass, d: DeviceClass, i: nat, j: nat)
    requires c != d && i < ClassPortRange && j < ClassPortRange
    ensures PortOf(c, i) != PortOf(d, j)
  {
  }

  /** Nodes of the wired segment: the access point and the six servers. */
  datatype Node = AccessPoint | Server(server: nat)

  const ServerCount: nat := 6

  /** The wired segment's container: the access point first, then the six servers in order. */
  const CsmaNodes: seq<Node> :=
    [AccessPoint, Server(0), Server(1), Server(2), Server(3), Server(4), Server(5)]

  /** The server node that holds the sinks of a class: server k serves the k-th class of `Classes`. */
  function SinkServer(c: DeviceClass): (s: nat)
    ensures s < ServerCount && s < |Classes| && Classes[s] == c
  {
    Index(c)
  }

  /** Distinct classes keep their sinks on distinct servers. */
  lemma SinkServerInjective(c: DeviceClass, d: DeviceClass)
    requires SinkServer(c) == SinkServer(d)
    ensures c == d
  {
  }

  /**
    The wired interface a class's sources send to.  Because the wired
    container is the access point followed by the servers, this interface
    belongs to exactly the server that holds the class's sinks.
   */
  function TargetInterface(c: DeviceClass): (j: nat)
    ensures 0 < j < |CsmaNodes|
    ensures CsmaNodes[j] == Server(SinkServer(c))
  {
    Index(c) + 1
  }
}

=== FILE: dataset.dfy ===
/**
  The dataset builder end to end: group the captured packets into flows,
  order each flow by capture time, window it, and concatenate the rows in
  flow insertion order.
 */
module Dataset {
  import opened Catalog
  import opened Labels
  import opened FlowTable
  import opened TimeOrder
  import opened Windows

  /** The rows of a flow table, flow after flow in insertion order. */
  function RowsOfTable(t: seq<FlowEntry>): seq<Row>
    requires NonEmptyEntries(t)
  {
    if t == [] then []
    else
      assert forall e :: e in t[1..] ==> e in t;
      FlowRows(t[0].key, SortByTime(t[0].packets)) + RowsOfTable(t[1..])
  }

  /** The dataset built from a capture. */
  function BuildDataset(ps: seq<Packet>): seq<Row>
  {
    RowsOfTable(Group(ps))
  }

  /**
    A row as the dataset holds them: a known, non-Light label that is the
    label of its port, over TCP or UDP, counting at least one packet over a
    non-negative duration.
   */
  predicate GoodRow(r: Row)
  {
    r.category.Known? && r.category.cls != Light && r.category == GetLabel(r.port)
    && r.proto != NoProto && r.features.packetCount >= 1 && r.features.duration >= 0
  }

  lemma {:induction false} TableRows(t: seq<FlowEntry>)
    requires NonEmptyEntries(t)
    requires forall e :: e in t ==> WellFormedKey(e.key)
    ensures forall r :: r in RowsOfTable(t) ==> GoodRow(r)
    ensures RowPackets(RowsOfTable(t)) <= PacketTotal(t)
  {
    if t != [] {
      assert forall e :: e in t[1..] ==> e in t;
      TableRows(t[1..]);
      var key, s := t[0].key, SortByTime(t[0].packets);
      assert t[0] in t;
      RowsCarryKey(key, s, s[0].time, 0, WindowCount(s[0].time, s[|s| - 1].time));
      RowsDurationNonNegative(key, s, s[0].time, 0, WindowCount(s[0].time, s[|s| - 1].time));
      CountedPackets(key, s);
      RowPacketsAppend(FlowRows(key, s), RowsOfTable(t[1..]));
    }
  }

  /**
    Every row of the dataset carries a known label other than Light, which is
    the label of the row's port, the TCP or UDP protocol and a non-negative
    duration, because each flow is ordered by time before windowing; and the rows
    together count no more packets than carry a flow key.
   */
  lemma DatasetRows(ps: seq<Packet>)
    ensures forall r :: r in BuildDataset(ps) ==> GoodRow(r)
    ensures RowPackets(BuildDataset(ps)) <= KeyedCount(ps)
  {
    GroupEntries(ps);
    TableRows(Group(ps));
  }
}

=== FILE: flow_table.dfy ===
/**
  Grouping of captured packets into flows.  The dataset builder keeps an
  insertion-ordered dictionary from flow key to packet list and appends
  each keyed packet to the list of its key; packets without a key are
  skipped.
 */
module FlowTable {
  import opened Optional
  import opened Labels

  datatype FlowEntry = FlowEntry(key: FlowKey, packets: seq<Packet>)

  /** The keys of a table. */
  function KeySet(t: seq<FlowEntry>): set<FlowKey>
  {
    set e | e in t :: e.key
  }

  predicate DistinctKeys(t: seq<FlowEntry>)
  {
    forall i, j :: 0 <= i < j < |t| ==> t[i].key != t[j].key
  }

  predicate NonEmptyEntries(t: seq<FlowEntry>)
  {
    forall e :: e in t ==> |e.packets| > 0
  }

  /** The packets stored under key `k`; empty when the key is absent. */
  function Lookup(t: seq<FlowEntry>, k: FlowKey): seq<Packet>
  {
    if t == [] then []
    else if t[0].key == k then t[0].packets
    else Lookup(t[1..], k)
  }

  /** The number of packets held in a table. */
  function PacketTotal(t: seq<FlowEntry>): nat
  {
    if t == [] then 0 else |t[0].packets| + PacketTotal(t[1..])
  }

  /**
    Appends packet `p` to the list of key `k`, creating the entry at the
    end of the table when the key is new.  Only the list of `k` changes.
   */
  function Append(t: seq<FlowEntry>, k: FlowKey, p: Packet): (r: seq<FlowEntry>)
    ensures Lookup(r, k) == Lookup(t, k) + [p]
    ensures forall k' :: k' != k ==> Lookup(r, k') == Lookup(t, k')
  {
    if t == [] then [FlowEntry(k, [p])]
    else if t[0].key == k then
      var r := [t[0].(packets := t[0].packets + [p])] + t[1..];
      assert r[1..] == t[1..];
      r
    else
      var rest := Append(t[1..], k, p);
      var r := [t[0]] + rest;
      assert r[1..] == rest;
      r
  }

  /** Appending adds the key to the table's keys and nothing else. */
  lemma {:induction false} AppendKeys(t: seq<FlowEntry>, k: FlowKey, p: Packet)
    ensures KeySet(Append(t, k, p)) == KeySet(t) + {k}
  {
    if t != [] {
      var r := Append(t, k, p);
      assert t == [t[0]] + t[1..];
      assert KeySet(t) == {t[0].key} + KeySet(t[1..]);
      if t[0].key == k {
        assert r == [t[0].(packets := t[0].packets + [p])] + t[1..];
        assert KeySet(r) == {k} + KeySet(t[1..]);
      } else {
        var rest := Append(t[1..], k, p);
        AppendKeys(t[1..], k, p);
        assert r == [t[0]] + rest;
        assert KeySet(r) == {t[0].key} + KeySet(rest);
      }
    }
  }

  /** Appending grows the table by exactly one packet. */
  lemma {:induction false} AppendTotal(t: seq<FlowEntry>, k: FlowKey, p: Packet)
    ensures PacketTotal(Append(t, k, p)) == PacketTotal(t) + 1
  {
    if t != [] {
      var r := Append(t, k, p);
      if t[0].key == k {
        assert r[1..] == t[1..];
      } else {
        AppendTotal(t[1..], k, p);
        assert r[1..] == Append(t[1..], k, p);
      }
    }
  }

  lemma DistinctCons(e: FlowEntry, t: seq<FlowEntry>)
    requires DistinctKeys(t) && e.key !in KeySet(t)
    ensures DistinctKeys([e] + t)
  {
    forall i, j | 0 <= i < j < |[e] + t|
      ensures ([e] + t)[i].key != ([e] + t)[j].key
    {
      if i == 0 {
        assert ([e] + t)[j] == t[j - 1];
        assert t[j - 1].key in KeySet(t);
      } else {
        assert ([e] + t)[i] == t[i - 1] && ([e] + t)[j] == t[j - 1];
      }
    }
  }

  /** Appending keeps the keys distinct. */
  lemma {:induction false} AppendKeepsDistinct(t: seq<FlowEntry>, k: FlowKey, p: Packet)
    requires DistinctKeys(t)
    ensures DistinctKeys(Append(t, k, p))
  {
    if t == [] {
    } else if t[0].key == k {
      var r := Append(t, k, p);
      assert r == [t[0].(packets := t[0].packets + [p])] + t[1..];
      assert forall j :: 0 <= j < |r| ==> r[j].key == t[j].key;
    } else {
      assert DistinctKeys(t[1..]);
      AppendKeepsDistinct(t[1..], k, p);
      var rest := Append(t[1..], k, p);
      AppendKeys(t[1..], k, p);
      assert t[0].key !in KeySet(t[1..]) by {
        forall j | 0 <= j < |t[1..]|
          ensures t[1..][j].key != t[0].key
        {
          assert t[1..][j] == t[j + 1];
        }
      }
      DistinctCons(t[0], rest);
    }
  }

  /** Appending keeps every list non-empty. */
  lemma {:induction false} AppendKeepsNonEmpty(t: seq<FlowEntry>, k: FlowKey, p: Packet)
    requires NonEmptyEntries(t)
    ensures NonEmptyEntries(Append(t, k, p))
  {
    if t != [] && t[0].key != k {
      assert NonEmptyEntries(t[1..]);
      AppendKeepsNonEmpty(t[1..], k, p);
    }
  }

  /** The packets of `ps` whose key is `k`, in capture order. */
  function Select(ps: seq<Packet>, k: FlowKey): seq<Packet>
  {
    if ps == [] then []
    else Select(ps[..|ps| - 1], k) + (if KeyOf(ps[|ps| - 1]) == Some(k) then [ps[|ps| - 1]] else [])
  }

  /** The keys the packets of `ps` carry. */
  function KeysOf(ps: seq<Packet>): set<FlowKey>
  {
    set p | p in ps && KeyOf(p).Some? :: KeyOf(p).value
  }

  /** The number of packets of `ps` that carry a key. */
  function KeyedCount(ps: seq<Packet>): nat
  {
    if ps == [] then 0
    else KeyedCount(ps[..|ps| - 1]) + (if KeyOf(ps[|ps| - 1]).Some? then 1 else 0)
  }

  /**
    Groups packets into flows.  Each keyed packet lands in exactly the list
    of its key, in capture order; each key appears once; no list is empty;
    the keys are exactly those the packets carry; and the table holds as
    many packets as carry a key.
   */
  function Group(ps: seq<Packet>): (t: seq<FlowEntry>)
    ensures DistinctKeys(t) && NonEmptyEntries(t)
    ensures forall k :: Lookup(t, k) == Select(ps, k)
    ensures KeySet(t) == KeysOf(ps)
    ensures PacketTotal(t) == KeyedCount(ps)
  {
    if ps == [] then []
    else
      var init, last := ps[..|ps| - 1], ps[|ps| - 1];
      assert ps == init + [last];
      assert KeysOf(ps) == KeysOf(init) + (if KeyOf(last).Some? then {KeyOf(last).value} else {});
      var t := Group(init);
      match KeyOf(last)
      case None => t
      case Some(k) =>
        AppendKeepsDistinct(t, k, last);
        AppendKeepsNonEmpty(t, k, last);
        AppendKeys(t, k, last);
        AppendTotal(t, k, last);
        Append(t, k, last)
  }

  lemma {:induction false} LookupEntry(t: seq<FlowEntry>, i: nat)
    requires DistinctKeys(t) && i < |t|
    ensures Lookup(t, t[i].key) == t[i].packets
  {
    if i > 0 {
      assert t[0].key != t[i].key;
      assert t[1..][i - 1] == t[i];
      LookupEntry(t[1..], i - 1);
    }
  }

  /** Every entry of the grouped table holds exactly the packets of its key, in capture order. */
  lemma GroupEntries(ps: seq<Packet>)
    ensures forall e :: e in Group(ps) ==> e.packets == Select(ps, e.key) && WellFormedKey(e.key)
  {
    var t := Group(ps);
    forall e | e in t
      ensures e.packets == Select(ps, e.key) && WellFormedKey(e.key)
    {
      var i :| 0 <= i < |t| && t[i] == e;
      LookupEntry(t, i);
      assert e.key in KeySet(t);
      var p :| p in ps && KeyOf(p).Some? && KeyOf(p).value == e.key;
    }
  }
}

=== FILE: labelling.dfy ===
/**
  How the workload of the scenario meets the labelling of the dataset
  builder: the label of every allocated port is the class that allocated
  it, except for lights, whose port range has no label and whose traffic
  therefore never reaches the dataset.
 */
module Labelling {
  import opened Optional
  import opened Catalog
  import opened Scenario
  import opened ScenarioProperties
  import opened Labels

  /** The label the dataset ought to give a class's traffic as the labelling is written. */
  function ExpectedLabel(c: DeviceClass): Label
  {
    if c == Light then Unknown else Known(c)
  }

  /** The protocol column a flow's packets are recorded under. */
  function ProtoColumn(pr: Protocol): Proto
  {
    match pr
    case Udp => UdpProto
    case Tcp => TcpProto
  }

  /** Below 1000 instances, the label of instance `i`'s port is its class, or Unknown for a light. */
  lemma LabelRecoversClass(c: DeviceClass, i: nat)
    requires i < ClassPortRange
    ensures GetLabel(PortOf(c, i)) == ExpectedLabel(c)
    ensures c == Light <==> GetLabel(PortOf(c, i)).Unknown?
  {
  }

  /** Every flow of a scenario with fewer than 1000 instances per class gets its class back as label, lights excepted. */
  lemma ScenarioLabels(p: Populations, duration: real, draws: seq<real>)
    requires Inputs(p, draws)
    requires forall c :: Count(p, c) < ClassPortRange
    ensures forall f :: f in Flows(p, duration, draws) ==> GetLabel(f.port) == ExpectedLabel(f.cls)
  {
    PortsDistinct(p, duration, draws);
  }

  /** A packet of a flow from its station to its server, with source port `sport`. */
  function Outbound(f: FlowAssignment, time: int, length: nat, src: nat, sport: nat): Packet
  {
    var t := match f.protocol
      case Udp => UdpDatagram(sport, f.port)
      case Tcp => TcpSegment(sport, f.port);
    Packet(time, length, Ipv4(src, t))
  }

  /** A packet of a flow from its server back to the station's port `dport`. */
  function Inbound(f: FlowAssignment, time: int, length: nat, src: nat, dport: nat): Packet
  {
    var t := match f.protocol
      case Udp => UdpDatagram(f.port, dport)
      case Tcp => TcpSegment(f.port, dport);
    Packet(time, length, Ipv4(src, t))
  }

  /**
    Both directions of a flow whose port lies in its class's range, with a
    station-side port outside [1000, 7000) (an ephemeral port, say), are
    keyed by the flow's port, its class label and its protocol; the packets
    of a light's flow get no key and enter no flow.
   */
  lemma FlowPacketsKeyed(f: FlowAssignment, time: int, length: nat, src: nat, ephemeral: nat)
    requires f.protocol == ProtocolOf(f.cls)
    requires BasePort(f.cls) <= f.port < BasePort(f.cls) + ClassPortRange
    requires !Labelled(ephemeral)
    ensures KeyOf(Outbound(f, time, length, src, ephemeral))
            == if f.cls == Light then None
               else Some(FlowKey(src, f.port, Known(f.cls), ProtoColumn(f.protocol)))
    ensures KeyOf(Inbound(f, time, length, src, ephemeral))
            == if f.cls == Light then None
               else Some(FlowKey(src, f.port, Known(f.cls), ProtoColumn(f.protocol)))
  {
  }

  /** The flows of a scenario satisfy the premises of `FlowPacketsKeyed`. */
  lemma ScenarioFlowsKeyed(p: Populations, duration: real, draws: seq<real>)
    requires Inputs(p, draws)
    requires forall c :: Count(p, c) < ClassPortRange
    ensures forall f :: f in Flows(p, duration, draws) ==>
              f.protocol == ProtocolOf(f.cls)
              && BasePort(f.cls) <= f.port < BasePort(f.cls) + ClassPortRange
  {
    var fs := Flows(p, duration, draws);
    PortsDistinct(p, duration, draws);
    StationsGapFree(p, duration, draws);
    forall f | f in fs
      ensures f.protocol == ProtocolOf(f.cls)
    {
      var j :| 0 <= j < |fs| && fs[j] == f;
      FlowAtStation(p, duration, draws, j);
    }
  }
}

=== FILE: labels.dfy ===
/**
  Captured packets, the port-range labelling of the dataset builder and the
  rule that picks the port a packet is labelled by.
 */
module Labels {
  import opened Optional
  import opened Catalog

  /** A dataset label: a device class, or "Unknown".  No port range yields Light. */
  datatype Label = Known(cls: DeviceClass) | Unknown

  /** The transport protocol column of a row: "TCP", "UDP" or the empty string. */
  datatype Proto = TcpProto | UdpProto | NoProto

  datatype Transport =
    | TcpSegment(sport: nat, dport: nat)
    | UdpDatagram(sport: nat, dport: nat)
    | OtherTransport

  datatype Network = NonIp | Ipv4(src: nat, transport: Transport)

  /** A captured packet: its capture time in microseconds, its length in bytes and its headers. */
  datatype Packet = Packet(time: int, length: nat, net: Network)

  /** Ports the labelling looks at: [1000, 7000). */
  predicate Labelled(port: int)
  {
    1000 <= port < 7000
  }

  /**
    The label of a port: one class per thousand from 1000 to 6999, except
    [3000, 4000), which has no case and so, like every other port, is Unknown.
   */
  function GetLabel(port: int): (l: Label)
    ensures l.Known? <==> (1000 <= port < 3000 || 4000 <= port < 7000)
    ensures l.Known? ==> l.cls != Light && BasePort(l.cls) <= port < BasePort(l.cls) + ClassPortRange
  {
    if 1000 <= port < 2000 then Known(Camera)
    else if 2000 <= port < 3000 then Known(Thermo)
    else if 4000 <= port < 5000 then Known(Assistant)
    else if 5000 <= port < 6000 then Known(TV)
    else if 6000 <= port < 7000 then Known(Laptop)
    else Unknown
  }

  /** The port a transport header is labelled by: the destination port if labelled, else the source port if labelled, else 0. */
  function PickPort(sport: nat, dport: nat): (port: nat)
    ensures port == 0 || Labelled(port)
    ensures port == dport || port == sport || port == 0
    ensures Labelled(dport) ==> port == dport
    ensures !Labelled(dport) && Labelled(sport) ==> port == sport
    ensures !Labelled(dport) && !Labelled(sport) ==> port == 0
  {
    if Labelled(dport) then dport
    else if Labelled(sport) then sport
    else 0
  }

  /** The protocol column and port of a transport header; other transports get the empty protocol and port 0. */
  function ProtoAndPort(t: Transport): (r: (Proto, nat))
    ensures r.0 == NoProto <==> t.OtherTransport?
    ensures t.TcpSegment? ==> r.0 == TcpProto
    ensures t.UdpDatagram? ==> r.0 == UdpProto
    ensures t.OtherTransport? ==> r.1 == 0
    ensures !t.OtherTransport? ==> r.1 == PickPort(t.sport, t.dport)
  {
    match t
    case TcpSegment(sport, dport) => (TcpProto, PickPort(sport, dport))
    case UdpDatagram(sport, dport) => (UdpProto, PickPort(sport, dport))
    case OtherTransport => (NoProto, 0)
  }

  /** The key packets are grouped by: source address, port, label and protocol. */
  datatype FlowKey = FlowKey(src: nat, port: nat, category: Label, proto: Proto)

  /** A key as the dataset builder forms them: a known label that is the label of its port, over TCP or UDP. */
  predicate WellFormedKey(k: FlowKey)
  {
    k.category.Known? && k.category == GetLabel(k.port) && Labelled(k.port) && k.proto != NoProto
  }

  /**
    The flow key of a packet, or None when the packet is not IP or its
    picked port is Unknown-labelled (such packets enter no flow).
   */
  function KeyOf(p: Packet): (k: Option<FlowKey>)
    ensures k.Some? ==> WellFormedKey(k.value)
    ensures k.Some? ==> p.net.Ipv4? && k.value.src == p.net.src
    ensures k.Some? ==> !p.net.transport.OtherTransport?
                        && (k.value.port == p.net.transport.dport || k.value.port == p.net.transport.sport)
                        && (k.value.proto == TcpProto <==> p.net.transport.TcpSegment?)
                        && (k.value.proto == UdpProto <==> p.net.transport.UdpDatagram?)
    ensures k.Some? ==> k.value.port == PickPort(p.net.transport.sport, p.net.transport.dport)
    ensures k.Some? && Labelled(p.net.transport.dport) ==> k.value.port == p.net.transport.dport
    ensures k.None? <==> !p.net.Ipv4? || GetLabel(ProtoAndPort(p.net.transport).1).Unknown?
  {
    match p.net
    case NonIp => None
    case Ipv4(src, t) =>
      var (proto, port) := ProtoAndPort(t);
      var category := GetLabel(port);
      if category != Unknown then Some(FlowKey(src, port, category, proto)) else None
  }
}

=== FILE: scenario.dfy ===
/**
  The workload of the smart-home scenario: one flow assignment per device
  instance, produced from the six class populations, the experiment
  duration and the shared uniform random stream.  The simulator calls are
  stripped away; what remains is which station runs each source, its port,
  the server it targets, the server holding its sink, its profile and its
  start and stop times.
 */
module Scenario {
  import opened Optional
  import opened Catalog

  /** The six class populations, held by the scenario in 32-bit counters. */
  datatype Populations = Populations(
    camera: nat, thermo: nat, light: nat, assistant: nat, tv: nat, laptop: nat)

  /** The populations and duration the scenario script fixes. */
  const DefaultPopulations: Populations := Populations(6, 12, 15, 3, 2, 4)
  const DefaultDuration: real := 120.0

  /** Bound of the 32-bit counter in which the station total is computed. */
  const CounterLimit: nat := 0x1_0000_0000

  function Count(p: Populations, c: DeviceClass): nat
  {
    match c
    case Camera => p.camera
    case Thermo => p.thermo
    case Light => p.light
    case Assistant => p.assistant
    case TV => p.tv
    case Laptop => p.laptop
  }

  /** The number of Wi-Fi stations the scenario creates: the sum of the populations. */
  function StationTotal(p: Populations): nat
  {
    p.camera + p.thermo + p.light + p.assistant + p.tv + p.laptop
  }

  /** The number of stations taken by the classes before position `k` of `Classes`. */
  function StationOffset(p: Populations, k: nat): nat
    requires k <= |Classes|
  {
    if k == 0 then 0 else StationOffset(p, k - 1) + Count(p, Classes[k - 1])
  }

  /** The number of uniform draws consumed by the classes before position `k`. */
  function DrawOffset(p: Populations, k: nat): nat
    requires k <= |Classes|
  {
    if k == 0 then 0
    else DrawOffset(p, k - 1) + (if Draws(Classes[k - 1]) then Count(p, Classes[k - 1]) else 0)
  }

  /** The number of uniform draws the whole scenario consumes. */
  function DrawsNeeded(p: Populations): nat
  {
    DrawOffset(p, |Classes|)
  }

  /** The station total fits the 32-bit counter, as the scenario's station container requires. */
  predicate Fits(p: Populations)
  {
    StationTotal(p) < CounterLimit
  }

  /** The offsets at the end of the class order are the station total and the draws of the four jittered classes. */
  lemma OffsetsAtEnd(p: Populations)
    ensures StationOffset(p, |Classes|) == StationTotal(p)
    ensures DrawsNeeded(p) == p.camera + p.thermo + p.light + p.assistant
  {
    assert StationOffset(p, 1) == p.camera;
    assert StationOffset(p, 2) == p.camera + p.thermo;
    assert StationOffset(p, 3) == p.camera + p.thermo + p.light;
    assert StationOffset(p, 4) == p.camera + p.thermo + p.light + p.assistant;
    assert StationOffset(p, 5) == p.camera + p.thermo + p.light + p.assistant + p.tv;
    assert DrawOffset(p, 1) == p.camera;
    assert DrawOffset(p, 2) == p.camera + p.thermo;
    assert DrawOffset(p, 3) == p.camera + p.thermo + p.light;
    assert DrawOffset(p, 4) == p.camera + p.thermo + p.light + p.assistant;
    assert DrawOffset(p, 5) == DrawOffset(p, 4);
  }

  /** Values of the uniform stream lie in [0, 1). */
  predicate UnitDraws(draws: seq<real>)
  {
    forall n :: 0 <= n < |draws| ==> 0.0 <= draws[n] < 1.0
  }

  /** The inputs to the scenario: enough unit draws for every jittered instance. */
  predicate Inputs(p: Populations, draws: seq<real>)
  {
    Fits(p) && DrawsNeeded(p) <= |draws| && UnitDraws(draws)
  }

  datatype FlowAssignment = FlowAssignment(
    cls: DeviceClass,
    ordinal: nat,              // instance number within its class
    station: nat,              // Wi-Fi station running the source
    port: nat,                 // destination port of the source, listening port of the sink
    protocol: Protocol,
    profile: TrafficProfile,
    target: nat,               // index of the destination address among the wired interfaces
    sinkServer: nat,           // index of the server node holding the sink
    draw: Option<nat>,         // the element of the uniform stream that fixed the start, if any
    start: real,
    stop: real,
    sinkStart: real)

  /** The value of a uniform draw `u` in [0, 1) scaled to the window [lo, hi). */
  function Scale(u: real, lo: real, hi: real): (t: real)
    requires 0.0 <= u < 1.0 && lo < hi
    ensures lo <= t < hi
  {
    var w, v := hi - lo, 1.0 - u;
    assert v * w > 0.0;
    assert u * w + v * w == w;
    lo + u * w
  }

  lemma DrawOffsetMonotone(p: Populations, k: nat, m: nat)
    requires k <= m <= |Classes|
    ensures DrawOffset(p, k) <= DrawOffset(p, m)
    decreases m - k
  {
    if k < m {
      DrawOffsetMonotone(p, k, m - 1);
    }
  }

  /** The flow of instance `i` of the class at position `k`. */
  function Flow(p: Populations, duration: real, draws: seq<real>, k: nat, i: nat): (f: FlowAssignment)
    requires Inputs(p, draws)
    requires k < |Classes| && i < Count(p, Classes[k])
    ensures f.cls == Classes[k] && f.ordinal == i
    ensures f.station == StationOffset(p, k) + i
    ensures f.port == PortOf(f.cls, i)
    ensures f.target < |CsmaNodes| && CsmaNodes[f.target] == Server(f.sinkServer)
    ensures f.draw.Some? <==> Draws(f.cls)
    ensures f.draw.Some? ==> f.draw.value == DrawOffset(p, k) + i
    ensures f.draw.Some? ==>
              (f.draw.value < |draws| && StartRuleOf(f.cls).Jittered?
               && f.start == Scale(draws[f.draw.value], StartRuleOf(f.cls).lo, StartRuleOf(f.cls).hi))
    ensures StartRuleOf(f.cls).Jittered? ==>
              StartRuleOf(f.cls).lo <= f.start < StartRuleOf(f.cls).hi
    ensures StartRuleOf(f.cls).Fixed? ==> f.start == StartRuleOf(f.cls).at
    ensures f.stop == duration && f.sinkStart == 0.0
  {
    var c := Classes[k];
    DrawOffsetMonotone(p, k + 1, |Classes|);
    var d := if Draws(c) then Some(DrawOffset(p, k) + i) else None;
    var start := match StartRuleOf(c)
      case Jittered(lo, hi) => Scale(draws[DrawOffset(p, k) + i], lo, hi)
      case Fixed(at) => at;
    FlowAssignment(c, i, StationOffset(p, k) + i, PortOf(c, i), ProtocolOf(c), ProfileOf(c),
                   TargetInterface(c), SinkServer(c), d, start, duration, 0.0)
  }

  /** The flows of the class at position `k`, in instance order. */
  function ClassFlows(p: Populations, duration: real, draws: seq<real>, k: nat): (fs: seq<FlowAssignment>)
    requires Inputs(p, draws)
    requires k < |Classes|
    ensures |fs| == Count(p, Classes[k])
    ensures forall i :: 0 <= i < |fs| ==> fs[i] == Flow(p, duration, draws, k, i)
  {
    seq(Count(p, Classes[k]), i requires 0 <= i < Count(p, Classes[k]) => Flow(p, duration, draws, k, i))
  }

  /** The flows of the classes before position `k`, class after class. */
  function FlowsUpTo(p: Populations, duration: real, draws: seq<real>, k: nat): seq<FlowAssignment>
    requires Inputs(p, draws)
    requires k <= |Classes|
  {
    if k == 0 then [] else FlowsUpTo(p, duration, draws, k - 1) + ClassFlows(p, duration, draws, k - 1)
  }

  /** The whole workload: every class in catalog order, every instance in ordinal order. */
  function Flows(p: Populations, duration: real, draws: seq<real>): seq<FlowAssignment>
    requires Inputs(p, draws)
  {
    FlowsUpTo(p, duration, draws, |Classes|)
  }

  /** The time at which the simulator is stopped: one second after the applications. */
  function SimulatorStop(duration: real): (t: real)
    ensures t > duration
  {
    duration + 1.0
  }

  /**
    One class loop of the scenario: instance i of the class at position `k`
    runs on the next station, and a jittered class takes the next draw of
    the stream.  The loop yields exactly the class's flows and leaves the
    station index and the stream cursor at the next class's offsets.
   */
  method BuildClass(p: Populations, duration: real, draws: seq<real>, k: nat, idx0: nat, used0: nat)
    returns (block: seq<FlowAssignment>, idx: nat, used: nat)
    requires Inputs(p, draws)
    requires k < |Classes|
    requires idx0 == StationOffset(p, k) && used0 == DrawOffset(p, k)
    ensures block == ClassFlows(p, duration, draws, k)
    ensures idx == StationOffset(p, k + 1) && used == DrawOffset(p, k + 1)
  {
    var c := Classes[k];
    DrawOffsetMonotone(p, k + 1, |Classes|);
    block, idx, used := [], idx0, used0;
    var i: nat := 0;
    while i < Count(p, c)
      invariant i <= Count(p, c)
      invariant block == ClassFlows(p, duration, draws, k)[..i]
      invariant idx == StationOffset(p, k) + i
      invariant used == DrawOffset(p, k) + (if Draws(c) then i else 0)
    {
      var start: real;
      var d: Option<nat>;
      match StartRuleOf(c) {
        case Jittered(lo, hi) =>
          start := Scale(draws[used], lo, hi);
          d := Some(used);
          used := used + 1;
        case Fixed(at) =>
          start := at;
          d := None;
      }
      var f := FlowAssignment(c, i, idx, PortOf(c, i), ProtocolOf(c), ProfileOf(c),
                              TargetInterface(c), SinkServer(c), d, start, duration, 0.0);
      assert f == ClassFlows(p, duration, draws, k)[i];
      assert ClassFlows(p, duration, draws, k)[..i + 1] == block + [f];
      block := block + [f];
      idx := idx + 1;
      i := i + 1;
    }
    assert ClassFlows(p, duration, draws, k)[..i] == ClassFlows(p, duration, draws, k);
  }

  /**
    Builds the workload the way the scenario does: one loop per class, a
    running station index shared by all loops, and a cursor into the
    uniform stream advanced once per jittered instance.  The result is the
    workload `Flows`, and the cursor ends having consumed exactly the draws
    of the cameras, thermostats, lights and assistants.
   */
  method BuildScenario(p: Populations, duration: real, draws: seq<real>)
    returns (flows: seq<FlowAssignment>, used: nat)
    requires Inputs(p, draws)
    ensures flows == Flows(p, duration, draws)
    ensures |flows| == StationTotal(p)
    ensures used == p.camera + p.thermo + p.light + p.assistant
  {
    flows, used := [], 0;
    var idx: nat := 0;
    var k: nat := 0;
    while k < |Classes|
      invariant k <= |Classes|
      invariant flows == FlowsUpTo(p, duration, draws, k)
      invariant idx == StationOffset(p, k) == |flows|
      invariant used == DrawOffset(p, k)
    {
      var block;
      block, idx, used := BuildClass(p, duration, draws, k, idx, used);
      flows := flows + block;
      k := k + 1;
    }
    OffsetsAtEnd(p);
  }
}

=== FILE: scenario_properties.dfy ===
/**
  Properties of the whole workload: gap-free station indices in class
  order, collision-free listeners, destination and sink on the same server,
  bounded start times, a common stop time before the simulator stops, and
  the order in which the uniform stream is consumed.
 */
module ScenarioProperties {
  import opened Optional
  import opened Catalog
  import opened Scenario

  /** The class position and ordinal of the instance running on station `j`, searching from position `k`. */
  function LocateFrom(p: Populations, j: nat, k: nat): (r: (nat, nat))
    requires k < |Classes| && StationOffset(p, k) <= j < StationOffset(p, |Classes|)
    ensures k <= r.0 < |Classes| && r.1 < Count(p, Classes[r.0])
    ensures StationOffset(p, r.0) + r.1 == j
    decreases |Classes| - k
  {
    if j < StationOffset(p, k + 1) then (k, j - StationOffset(p, k))
    else LocateFrom(p, j, k + 1)
  }

  /** The class position and ordinal of the instance running on station `j`. */
  function Locate(p: Populations, j: nat): (r: (nat, nat))
    requires j < StationTotal(p)
    ensures r.0 < |Classes| && r.1 < Count(p, Classes[r.0])
    ensures StationOffset(p, r.0) + r.1 == j
  {
    OffsetsAtEnd(p);
    LocateFrom(p, j, 0)
  }

  lemma {:induction false} FlowsUpToAt(p: Populations, duration: real, draws: seq<real>, k: nat, m: nat, i: nat)
    requires Inputs(p, draws)
    requires k < m <= |Classes| && i < Count(p, Classes[k])
    ensures |FlowsUpTo(p, duration, draws, m)| == StationOffset(p, m)
    ensures StationOffset(p, k) + i < StationOffset(p, m)
    ensures FlowsUpTo(p, duration, draws, m)[StationOffset(p, k) + i] == Flow(p, duration, draws, k, i)
    decreases m
  {
    FlowsUpToLength(p, duration, draws, m - 1);
    if k < m - 1 {
      FlowsUpToAt(p, duration, draws, k, m - 1, i);
    }
  }

  lemma {:induction false} FlowsUpToLength(p: Populations, duration: real, draws: seq<real>, k: nat)
    requires Inputs(p, draws)
    requires k <= |Classes|
    ensures |FlowsUpTo(p, duration, draws, k)| == StationOffset(p, k)
  {
    if k > 0 {
      FlowsUpToLength(p, duration, draws, k - 1);
    }
  }

  /** Station `j` runs the flow of the instance `Locate` assigns to it. */
  lemma FlowAtStation(p: Populations, duration: real, draws: seq<real>, j: nat)
    requires Inputs(p, draws)
    requires j < StationTotal(p)
    ensures |Flows(p, duration, draws)| == StationTotal(p)
    ensures Flows(p, duration, draws)[j] == Flow(p, duration, draws, Locate(p, j).0, Locate(p, j).1)
  {
    OffsetsAtEnd(p);
    var (k, i) := Locate(p, j);
    FlowsUpToAt(p, duration, draws, k, |Classes|, i);
  }

  /**
    One flow per device instance, and the instances take the stations
    0, 1, 2, ... in order with no gap or repeat; the number of flows is the
    number of stations the scenario creates.
   */
  lemma StationsGapFree(p: Populations, duration: real, draws: seq<real>)
    requires Inputs(p, draws)
    ensures |Flows(p, duration, draws)| == StationTotal(p)
    ensures forall j :: 0 <= j < StationTotal(p) ==> Flows(p, duration, draws)[j].station == j
  {
    OffsetsAtEnd(p);
    FlowsUpToLength(p, duration, draws, |Classes|);
    forall j | 0 <= j < StationTotal(p)
      ensures Flows(p, duration, draws)[j].station == j
    {
      FlowAtStation(p, duration, draws, j);
    }
  }

  /** Instance `i` of the class at position `k` runs on station `StationOffset(k) + i`: classes come in catalog order. */
  lemma ClassOrder(p: Populations, duration: real, draws: seq<real>, k: nat, i: nat)
    requires Inputs(p, draws)
    requires k < |Classes| && i < Count(p, Classes[k])
    ensures StationOffset(p, k) + i < |Flows(p, duration, draws)|
    ensures Flows(p, duration, draws)[StationOffset(p, k) + i].cls == Classes[k]
    ensures Flows(p, duration, draws)[StationOffset(p, k) + i].ordinal == i
  {
    FlowsUpToAt(p, duration, draws, k, |Classes|, i);
  }

  /**
    Every source sends to the wired interface of the very server that holds
    its sink, and that server is the one of its class.
   */
  lemma TargetIsListener(p: Populations, duration: real, draws: seq<real>)
    requires Inputs(p, draws)
    ensures forall f :: f in Flows(p, duration, draws) ==>
              f.target < |CsmaNodes| && CsmaNodes[f.target] == Server(f.sinkServer)
              && f.sinkServer == SinkServer(f.cls)
              && f.sinkServer == Index(f.cls) && f.target == Index(f.cls) + 1
  {
    var fs := Flows(p, duration, draws);
    StationsGapFree(p, duration, draws);
    forall f | f in fs
      ensures f.target < |CsmaNodes| && CsmaNodes[f.target] == Server(f.sinkServer)
      ensures f.sinkServer == SinkServer(f.cls)
      ensures f.sinkServer == Index(f.cls) && f.target == Index(f.cls) + 1
    {
      var j :| 0 <= j < |fs| && fs[j] == f;
      FlowAtStation(p, duration, draws, j);
    }
  }

  /** Two distinct flows never share a (sink server, port) pair while each population fits the port space. */
  lemma ListenerPair(p: Populations, duration: real, draws: seq<real>, j1: nat, j2: nat)
    requires Inputs(p, draws)
    requires forall c :: Count(p, c) <= PortSpace
    requires j1 < j2 < StationTotal(p)
    ensures |Flows(p, duration, draws)| == StationTotal(p)
    ensures (Flows(p, duration, draws)[j1].sinkServer, Flows(p, duration, draws)[j1].port)
            != (Flows(p, duration, draws)[j2].sinkServer, Flows(p, duration, draws)[j2].port)
  {
    var fs := Flows(p, duration, draws);
    FlowAtStation(p, duration, draws, j1);
    FlowAtStation(p, duration, draws, j2);
    var (k1, i1) := Locate(p, j1);
    var (k2, i2) := Locate(p, j2);
    if fs[j1].sinkServer == fs[j2].sinkServer && fs[j1].port == fs[j2].port {
      SinkServerInjective(fs[j1].cls, fs[j2].cls);
      PortInjective(fs[j1].cls, i1, i2);
      assert false;
    }
  }

  /**
    No server holds two sinks on one port, as long as each population fits
    the 16-bit port space.
   */
  lemma ListenersUnique(p: Populations, duration: real, draws: seq<real>)
    requires Inputs(p, draws)
    requires forall c :: Count(p, c) <= PortSpace
    ensures forall j1, j2 :: 0 <= j1 < j2 < |Flows(p, duration, draws)| ==>
              (Flows(p, duration, draws)[j1].sinkServer, Flows(p, duration, draws)[j1].port)
              != (Flows(p, duration, draws)[j2].sinkServer, Flows(p, duration, draws)[j2].port)
  {
    var fs := Flows(p, duration, draws);
    StationsGapFree(p, duration, draws);
    forall j1, j2 | 0 <= j1 < j2 < |fs|
      ensures (fs[j1].sinkServer, fs[j1].port) != (fs[j2].sinkServer, fs[j2].port)
    {
      ListenerPair(p, duration, draws, j1, j2);
    }
  }

  /** Below 1000 instances per class, every flow's port lies in its class's range. */
  lemma PortsInClassRange(p: Populations, duration: real, draws: seq<real>)
    requires Inputs(p, draws)
    requires forall c :: Count(p, c) < ClassPortRange
    ensures forall f :: f in Flows(p, duration, draws) ==>
              BasePort(f.cls) <= f.port < BasePort(f.cls) + ClassPortRange
  {
    var fs := Flows(p, duration, draws);
    StationsGapFree(p, duration, draws);
    forall f | f in fs
      ensures BasePort(f.cls) <= f.port < BasePort(f.cls) + ClassPortRange
    {
      var j :| 0 <= j < |fs| && fs[j] == f;
      FlowAtStation(p, duration, draws, j);
    }
  }

  /** Below 1000 instances per class, two distinct flows have distinct ports. */
  lemma PortPair(p: Populations, duration: real, draws: seq<real>, j1: nat, j2: nat)
    requires Inputs(p, draws)
    requires forall c :: Count(p, c) < ClassPortRange
    requires j1 < j2 < StationTotal(p)
    ensures |Flows(p, duration, draws)| == StationTotal(p)
    ensures Flows(p, duration, draws)[j1].port != Flows(p, duration, draws)[j2].port
  {
    var fs := Flows(p, duration, draws);
    FlowAtStation(p, duration, draws, j1);
    FlowAtStation(p, duration, draws, j2);
    var (k1, i1) := Locate(p, j1);
    var (k2, i2) := Locate(p, j2);
    if fs[j1].cls == fs[j2].cls {
      if fs[j1].port == fs[j2].port {
        PortInjective(fs[j1].cls, i1, i2);
        assert false;
      }
    } else {
      PortRangesDisjoint(fs[j1].cls, fs[j2].cls, i1, i2);
    }
  }

  /**
    With fewer than 1000 instances per class, every port lies in its class's
    range [1000(k+1), 1000(k+2)) and the ports of all flows are pairwise
    distinct, across classes too.
   */
  lemma PortsDistinct(p: Populations, duration: real, draws: seq<real>)
    requires Inputs(p, draws)
    requires forall c :: Count(p, c) < ClassPortRange
    ensures forall f :: f in Flows(p, duration, draws) ==>
              BasePort(f.cls) <= f.port < BasePort(f.cls) + ClassPortRange
    ensures forall j1, j2 :: 0 <= j1 < j2 < |Flows(p, duration, draws)| ==>
              Flows(p, duration, draws)[j1].port != Flows(p, duration, draws)[j2].port
  {
    var fs := Flows(p, duration, draws);
    PortsInClassRange(p, duration, draws);
    StationsGapFree(p, duration, draws);
    forall j1, j2 | 0 <= j1 < j2 < |fs|
      ensures fs[j1].port != fs[j2].port
    {
      PortPair(p, duration, draws, j1, j2);
    }
  }

  /**
    Start times by class: cameras in [0, 2), thermostats and lights in
    [0, 5), assistants in [2, 8); every TV at exactly 1 s and every laptop at
    exactly 2 s, with no per-instance stagger.
   */
  lemma StartWindows(p: Populations, duration: real, draws: seq<real>)
    requires Inputs(p, draws)
    ensures forall f :: f in Flows(p, duration, draws) ==>
              match f.cls
              case Camera => 0.0 <= f.start < 2.0
              case Thermo => 0.0 <= f.start < 5.0
              case Light => 0.0 <= f.start < 5.0
              case Assistant => 2.0 <= f.start < 8.0
              case TV => f.start == 1.0
              case Laptop => f.start == 2.0
  {
    var fs := Flows(p, duration, draws);
    StationsGapFree(p, duration, draws);
    forall f | f in fs
      ensures match f.cls
              case Camera => 0.0 <= f.start < 2.0
              case Thermo => 0.0 <= f.start < 5.0
              case Light => 0.0 <= f.start < 5.0
              case Assistant => 2.0 <= f.start < 8.0
              case TV => f.start == 1.0
              case Laptop => f.start == 2.0
    {
      var j :| 0 <= j < |fs| && fs[j] == f;
      FlowAtStation(p, duration, draws, j);
    }
  }

  /**
    Traffic profiles by class: the four UDP classes run on/off sources at
    (1 Mbps, 1000 B), (1 kbps, 50 B), (1 kbps, 50 B) and (128 kbps, 200 B)
    with their on/off laws; TVs and laptops run unlimited TCP bulk senders
    with 1500-byte sends.
   */
  lemma ProfilesByClass(p: Populations, duration: real, draws: seq<real>)
    requires Inputs(p, draws)
    ensures forall f :: f in Flows(p, duration, draws) ==>
              f.protocol == (if f.cls in {TV, Laptop} then Tcp else Udp)
              && match f.cls
                 case Camera => f.profile == OnOff(1_000_000, 1000, Constant(1.0), Constant(0.0))
                 case Thermo => f.profile == OnOff(1_000, 50, Constant(0.5), Uniform(20.0, 60.0))
                 case Light => f.profile == OnOff(1_000, 50, Constant(0.1), Exponential(120.0))
                 case Assistant => f.profile == OnOff(128_000, 200, Uniform(2.0, 5.0), Exponential(60.0))
                 case TV => f.profile == BulkSend(0, 1500)
                 case Laptop => f.profile == BulkSend(0, 1500)
  {
    var fs := Flows(p, duration, draws);
    StationsGapFree(p, duration, draws);
    forall f | f in fs
      ensures f.protocol == (if f.cls in {TV, Laptop} then Tcp else Udp)
      ensures match f.cls
              case Camera => f.profile == OnOff(1_000_000, 1000, Constant(1.0), Constant(0.0))
              case Thermo => f.profile == OnOff(1_000, 50, Constant(0.5), Uniform(20.0, 60.0))
              case Light => f.profile == OnOff(1_000, 50, Constant(0.1), Exponential(120.0))
              case Assistant => f.profile == OnOff(128_000, 200, Uniform(2.0, 5.0), Exponential(60.0))
              case TV => f.profile == BulkSend(0, 1500)
              case Laptop => f.profile == BulkSend(0, 1500)
    {
      var j :| 0 <= j < |fs| && fs[j] == f;
      FlowAtStation(p, duration, draws, j);
    }
  }

  /**
    Every sink starts at 0 and every source stops at `duration`; once the
    duration passes the latest possible start (8 s; the scenario uses 120 s),
    each flow has sink start <= source start < source stop, and the
    simulator stops strictly after every application.
   */
  lemma Timeline(p: Populations, duration: real, draws: seq<real>)
    requires Inputs(p, draws)
    requires duration >= 8.0
    ensures forall f :: f in Flows(p, duration, draws) ==>
              f.sinkStart == 0.0 && f.stop == duration
              && f.sinkStart <= f.start < f.stop < SimulatorStop(duration)
  {
    var fs := Flows(p, duration, draws);
    StationsGapFree(p, duration, draws);
    forall f | f in fs
      ensures f.sinkStart == 0.0 && f.stop == duration
      ensures f.sinkStart <= f.start < f.stop < SimulatorStop(duration)
    {
      var j :| 0 <= j < |fs| && fs[j] == f;
      FlowAtStation(p, duration, draws, j);
    }
  }

  /** The stream indices of the draws a sequence of flows consumes, in flow order. */
  function DrawIndices(fs: seq<FlowAssignment>): seq<nat>
  {
    if fs == [] then []
    else (match fs[0].draw case Some(d) => [d] case None => []) + DrawIndices(fs[1..])
  }

  /** The indices lo, lo+1, ..., lo+n-1. */
  function Range(lo: nat, n: nat): (r: seq<nat>)
    ensures |r| == n && forall m :: 0 <= m < n ==> r[m] == lo + m
  {
    seq(n, m => lo + m)
  }

  lemma {:induction false} DrawIndicesAppend(a: seq<FlowAssignment>, b: seq<FlowAssignment>)
    ensures DrawIndices(a + b) == DrawIndices(a) + DrawIndices(b)
    decreases |a|
  {
    if a == [] {
      assert a + b == b;
    } else {
      assert (a + b)[1..] == a[1..] + b;
      DrawIndicesAppend(a[1..], b);
    }
  }

  /** A block whose i-th flow consumes draw lo + i (or, when it draws nothing, none) reads off as lo, lo+1, .... */
  lemma {:induction false} DrawIndicesOfBlock(b: seq<FlowAssignment>, lo: nat, draws: bool)
    requires forall i :: 0 <= i < |b| ==> b[i].draw == if draws then Some(lo + i) else None
    ensures DrawIndices(b) == if draws then Range(lo, |b|) else []
    decreases |b|
  {
    if b != [] {
      var rest := b[1..];
      forall i | 0 <= i < |rest|
        ensures rest[i].draw == if draws then Some(lo + 1 + i) else None
      {
        assert rest[i] == b[i + 1];
      }
      DrawIndicesOfBlock(rest, lo + 1, draws);
      if draws {
        assert Range(lo, |b|) == [lo] + Range(lo + 1, |rest|);
      } else {
        assert b[0].draw.None?;
      }
    }
  }

  /** Instance i of class k consumes draw DrawOffset(k) + i if its class draws, and none otherwise. */
  lemma ClassFlowDraw(p: Populations, duration: real, draws: seq<real>, k: nat, i: nat)
    requires Inputs(p, draws)
    requires k < |Classes| && i < Count(p, Classes[k])
    ensures ClassFlows(p, duration, draws, k)[i].draw
            == if Draws(Classes[k]) then Some(DrawOffset(p, k) + i) else None
  {
    var f := Flow(p, duration, draws, k, i);
    assert f.draw.Some? <==> Draws(Classes[k]);
  }

  /** Every flow of class k consumes the draw its ordinal selects, or none. */
  lemma ClassDraws(p: Populations, duration: real, draws: seq<real>, k: nat)
    requires Inputs(p, draws)
    requires k < |Classes|
    ensures forall i :: 0 <= i < |ClassFlows(p, duration, draws, k)| ==>
              ClassFlows(p, duration, draws, k)[i].draw
              == if Draws(Classes[k]) then Some(DrawOffset(p, k) + i) else None
  {
    forall i | 0 <= i < |ClassFlows(p, duration, draws, k)|
      ensures ClassFlows(p, duration, draws, k)[i].draw
              == if Draws(Classes[k]) then Some(DrawOffset(p, k) + i) else None
    {
      ClassFlowDraw(p, duration, draws, k, i);
    }
  }

  /** The flows of class k consume the draws from the class's draw offset on, one per instance, if the class draws at all. */
  lemma DrawIndicesOfClass(p: Populations, duration: real, draws: seq<real>, k: nat)
    requires Inputs(p, draws)
    requires k < |Classes|
    ensures DrawIndices(ClassFlows(p, duration, draws, k))
            == if Draws(Classes[k]) then Range(DrawOffset(p, k), |ClassFlows(p, duration, draws, k)|) else []
  {
    ClassDraws(p, duration, draws, k);
    DrawIndicesOfBlock(ClassFlows(p, duration, draws, k), DrawOffset(p, k), Draws(Classes[k]));
  }

  lemma RangeSplit(lo: nat, n: nat, m: nat)
    ensures Range(lo, n + m) == Range(lo, n) + Range(lo + n, m)
  {
  }

  lemma {:induction false} DrawIndicesUpTo(p: Populations, duration: real, draws: seq<real>, k: nat)
    requires Inputs(p, draws)
    requires k <= |Classes|
    ensures DrawIndices(FlowsUpTo(p, duration, draws, k)) == Range(0, DrawOffset(p, k))
  {
    if k > 0 {
      var prefix, cf := FlowsUpTo(p, duration, draws, k - 1), ClassFlows(p, duration, draws, k - 1);
      var n, d := Count(p, Classes[k - 1]), Draws(Classes[k - 1]);
      assert FlowsUpTo(p, duration, draws, k) == prefix + cf;
      assert |cf| == n;
      assert DrawOffset(p, k) == DrawOffset(p, k - 1) + if d then n else 0;
      DrawIndicesUpTo(p, duration, draws, k - 1);
      DrawIndicesOfClass(p, duration, draws, k - 1);
      DrawIndicesStep(prefix, cf, DrawOffset(p, k - 1), n, d);
    }
  }

  /** Appending a block of flows that consumes the next n draws extends the consumed range. */
  lemma DrawIndicesStep(prefix: seq<FlowAssignment>, block: seq<FlowAssignment>, before: nat, n: nat, draws: bool)
    requires DrawIndices(prefix) == Range(0, before)
    requires DrawIndices(block) == if draws then Range(before, n) else []
    ensures DrawIndices(prefix + block) == Range(0, before + if draws then n else 0)
  {
    DrawIndicesAppend(prefix, block);
    if draws {
      RangeSplit(0, before, n);
    } else {
      assert Range(0, before) + [] == Range(0, before);
    }
  }

  /**
    The single uniform stream is consumed exactly once per camera,
    thermostat, light and assistant, in class order and then instance order:
    reading the draws off the flows in station order gives 0, 1, ..., N-1,
    and the start of each of those flows is that draw scaled to its class's
    window.  TVs and laptops consume none.
   */
  lemma DrawOrder(p: Populations, duration: real, draws: seq<real>)
    requires Inputs(p, draws)
    ensures DrawIndices(Flows(p, duration, draws))
            == Range(0, p.camera + p.thermo + p.light + p.assistant)
    ensures forall f :: f in Flows(p, duration, draws) ==> (f.draw.None? <==> f.cls in {TV, Laptop})
    ensures forall f :: f in Flows(p, duration, draws) && f.draw.Some? ==>
              f.draw.value < |draws| && StartRuleOf(f.cls).Jittered?
              && f.start == Scale(draws[f.draw.value], StartRuleOf(f.cls).lo, StartRuleOf(f.cls).hi)
  {
    DrawIndicesUpTo(p, duration, draws, |Classes|);
    OffsetsAtEnd(p);
    var fs := Flows(p, duration, draws);
    StationsGapFree(p, duration, draws);
    forall f | f in fs
      ensures f.draw.None? <==> f.cls in {TV, Laptop}
      ensures f.draw.Some? ==>
                f.draw.value < |draws| && StartRuleOf(f.cls).Jittered?
                && f.start == Scale(draws[f.draw.value], StartRuleOf(f.cls).lo, StartRuleOf(f.cls).hi)
    {
      var j :| 0 <= j < |fs| && fs[j] == f;
      FlowAtStation(p, duration, draws, j);
    }
  }

  /**
    Changing the random stream changes only the start times of the jittered
    classes: the flow count, stations, ports, servers, profiles and stops
    are the same, and two streams that agree on the draws the scenario
    consumes give the very same workload.
   */
  lemma StreamOnlyMovesStarts(p: Populations, duration: real, s1: seq<real>, s2: seq<real>)
    requires Inputs(p, s1) && Inputs(p, s2)
    ensures |Flows(p, duration, s1)| == |Flows(p, duration, s2)|
    ensures forall j :: 0 <= j < |Flows(p, duration, s1)| ==>
              Flows(p, duration, s1)[j].(start := 0.0) == Flows(p, duration, s2)[j].(start := 0.0)
              && (Flows(p, duration, s1)[j].draw.None? ==> Flows(p, duration, s1)[j].start == Flows(p, duration, s2)[j].start)
    ensures s1[..DrawsNeeded(p)] == s2[..DrawsNeeded(p)] ==> Flows(p, duration, s1) == Flows(p, duration, s2)
  {
    var f1, f2 := Flows(p, duration, s1), Flows(p, duration, s2);
    StationsGapFree(p, duration, s1);
    StationsGapFree(p, duration, s2);
    forall j | 0 <= j < |f1|
      ensures f1[j].(start := 0.0) == f2[j].(start := 0.0)
      ensures f1[j].draw.None? ==> f1[j].start == f2[j].start
      ensures s1[..DrawsNeeded(p)] == s2[..DrawsNeeded(p)] ==> f1[j] == f2[j]
    {
      FlowAtStation(p, duration, s1, j);
      FlowAtStation(p, duration, s2, j);
      var (k, i) := Locate(p, j);
      DrawOffsetMonotone(p, k + 1, |Classes|);
      if s1[..DrawsNeeded(p)] == s2[..DrawsNeeded(p)] && Draws(Classes[k]) {
        assert s1[DrawOffset(p, k) + i] == s1[..DrawsNeeded(p)][DrawOffset(p, k) + i];
        assert s2[DrawOffset(p, k) + i] == s2[..DrawsNeeded(p)][DrawOffset(p, k) + i];
      }
    }
  }

  /**
    The scenario as configured: 42 flows on 42 stations, 36 draws, every
    flow stopping at 120 s and the simulator stopping at 121 s.
   */
  lemma DefaultScenario(draws: seq<real>)
    requires Inputs(DefaultPopulations, draws)
    ensures StationTotal(DefaultPopulations) == 42
    ensures |Flows(DefaultPopulations, DefaultDuration, draws)| == 42
    ensures DrawsNeeded(DefaultPopulations) == 36
    ensures forall f :: f in Flows(DefaultPopulations, DefaultDuration, draws) ==>
              f.stop == 120.0 && f.start < f.stop
    ensures SimulatorStop(DefaultDuration) == 121.0
  {
    StationsGapFree(DefaultPopulations, DefaultDuration, draws);
    Timeline(DefaultPopulations, DefaultDuration, draws);
    OffsetsAtEnd(DefaultPopulations);
  }
}

=== FILE: time_order.dfy ===
/** Ordering a flow's packets by capture time before windowing. */
module TimeOrder {
  import opened Labels

  predicate SortedByTime(s: seq<Packet>)
  {
    forall i, j :: 0 <= i < j < |s| ==> s[i].time <= s[j].time
  }

  lemma SortedCons(a: Packet, s: seq<Packet>)
    requires SortedByTime(s)
    requires forall x :: x in s ==> a.time <= x.time
    ensures SortedByTime([a] + s)
  {
    forall i, j | 0 <= i < j < |[a] + s|
      ensures ([a] + s)[i].time <= ([a] + s)[j].time
    {
      assert ([a] + s)[j] == s[j - 1];
      if i > 0 {
        assert ([a] + s)[i] == s[i - 1];
      } else {
        assert s[j - 1] in s;
      }
    }
  }

  /** Inserts `p` before the first packet that is not earlier, so equal times keep `p` first. */
  function InsertByTime(p: Packet, s: seq<Packet>): (r: seq<Packet>)
    requires SortedByTime(s)
    ensures SortedByTime(r)
    ensures multiset(r) == multiset(s) + multiset{p}
    ensures forall x :: x in r ==> x == p || x in s
  {
    if s == [] || p.time <= s[0].time then
      assert forall x :: x in s ==> p.time <= s[0].time <= x.time;
      SortedCons(p, s);
      [p] + s
    else
      var rest := InsertByTime(p, s[1..]);
      assert s == [s[0]] + s[1..];
      assert forall x :: x in s[1..] ==> s[0].time <= x.time;
      SortedCons(s[0], rest);
      [s[0]] + rest
  }

  /** Orders packets by capture time, keeping the capture order of equal times. */
  function SortByTime(s: seq<Packet>): (r: seq<Packet>)
    ensures SortedByTime(r)
    ensures multiset(r) == multiset(s)
    ensures |r| == |s|
  {
    if s == [] then []
    else
      assert s == [s[0]] + s[1..];
      var r := InsertByTime(s[0], SortByTime(s[1..]));
      assert |r| == |multiset(r)|;
      r
  }
}

=== FILE: windows.dfy ===
/**
  Slicing one flow into fixed five-second windows and turning each
  non-empty window into a dataset row.  Times are capture times in
  microseconds, so a window is 5_000_000 units wide.
 */
module Windows {
  import opened Optional
  import opened Labels
  import opened TimeOrder

  /** Five seconds, in microseconds. */
  const WindowWidth: nat := 5_000_000

  const MicrosPerSecond: nat := 1_000_000

  /** The packets of `s` captured in [lo, hi), in order. */
  function Between(s: seq<Packet>, lo: int, hi: int): (r: seq<Packet>)
    ensures forall p :: p in r ==> p in s && lo <= p.time < hi
    ensures forall p :: p in s && lo <= p.time < hi ==> p in r
  {
    if s == [] then []
    else (if lo <= s[0].time < hi then [s[0]] else []) + Between(s[1..], lo, hi)
  }

  /** A window keeps every occurrence of each packet in range, and none of any other. */
  lemma {:induction false} BetweenCount(s: seq<Packet>, lo: int, hi: int)
    ensures forall p :: multiset(Between(s, lo, hi))[p] == if lo <= p.time < hi then multiset(s)[p] else 0
  {
    if s != [] {
      BetweenCount(s[1..], lo, hi);
      assert s == [s[0]] + s[1..];
    }
  }

  /** The packets in a range of a time-ordered flow are time-ordered. */
  lemma {:induction false} BetweenSorted(s: seq<Packet>, lo: int, hi: int)
    requires SortedByTime(s)
    ensures SortedByTime(Between(s, lo, hi))
  {
    if s != [] {
      var rest := Between(s[1..], lo, hi);
      assert SortedByTime(s[1..]);
      BetweenSorted(s[1..], lo, hi);
      if lo <= s[0].time < hi {
        forall x | x in rest
          ensures s[0].time <= x.time
        {
          var m :| 0 <= m < |s[1..]| && s[1..][m] == x;
          assert s[m + 1] == x;
        }
        SortedCons(s[0], rest);
      } else {
        assert [] + rest == rest;
      }
    }
  }

  /** The packets of `s` captured exactly at time `t`. */
  function AtTime(s: seq<Packet>, t: int): seq<Packet>
  {
    Between(s, t, t + 1)
  }

  /** The total length in bytes of a packet sequence. */
  function Bytes(s: seq<Packet>): nat
  {
    if s == [] then 0 else s[0].length + Bytes(s[1..])
  }

  /** The integer and guarded parts of a feature row. */
  datatype Features = Features(packetCount: nat, totalBytes: nat, duration: int, bitrate: real)

  /** The features of a window: none for an empty window, otherwise its packet count and byte total plus its duration and bit rate. */
  function GetFeatures(win: seq<Packet>): (f: Option<Features>)
    ensures f.None? <==> win == []
    ensures f.Some? ==> f.value.packetCount == |win| && f.value.totalBytes == Bytes(win)
  {
    if win == [] then None
    else
      var duration := if |win| > 1 then win[|win| - 1].time - win[0].time else 0;
      var bits := 8 * Bytes(win);
      var bitrate := if duration > 0 then (bits * MicrosPerSecond) as real / duration as real else 0.0;
      Some(Features(|win|, Bytes(win), duration, bitrate))
  }

  /**
    The duration of a window is last minus first capture time, 0 for fewer
    than two packets and never negative on a time-ordered window; its bit
    rate is 0 unless the duration is positive, and then it is the window's
    bits per second.
   */
  lemma FeatureValues(win: seq<Packet>)
    requires win != []
    ensures var f := GetFeatures(win).value;
            && (|win| < 2 ==> f.duration == 0)
            && (|win| >= 2 ==> f.duration == win[|win| - 1].time - win[0].time)
            && (SortedByTime(win) ==> f.duration >= 0)
            && (f.duration <= 0 ==> f.bitrate == 0.0)
            && (f.duration > 0 ==> f.bitrate * (f.duration as real) == (8 * Bytes(win) * MicrosPerSecond) as real)
  {
  }

  /** A dataset row: the window's features plus the label, protocol and port of its flow. */
  datatype Row = Row(features: Features, category: Label, proto: Proto, port: nat)

  /** The `j`-th window bound of a flow starting at `start`: start + 5 s * j. */
  function Edge(start: int, j: nat): int
  {
    start + WindowWidth * j
  }

  /** The number of windows of a flow: how many bounds `start + 5 s * j` lie strictly before `end`. */
  function WindowCount(start: int, end: int): (n: nat)
    ensures end <= start ==> n == 0
    ensures start < end ==> n > 0 && Edge(start, n - 1) < end <= Edge(start, n)
  {
    if end <= start then 0 else (end - start + WindowWidth - 1) / WindowWidth
  }

  /** Window `j` of a flow starting at `start`: [start + 5 s * j, start + 5 s * (j + 1)). */
  function Window(s: seq<Packet>, start: int, j: nat): seq<Packet>
  {
    Between(s, Edge(start, j), Edge(start, j + 1))
  }

  /** The row of a window, or nothing when the window is empty. */
  function WindowRow(key: FlowKey, win: seq<Packet>): seq<Row>
  {
    match GetFeatures(win)
    case None => []
    case Some(f) => [Row(f, key.category, key.proto, key.port)]
  }

  /** The rows of windows j, j + 1, ..., n - 1. */
  function RowsFrom(key: FlowKey, s: seq<Packet>, start: int, j: nat, n: nat): seq<Row>
    decreases n - j
  {
    if j >= n then [] else WindowRow(key, Window(s, start, j)) + RowsFrom(key, s, start, j + 1, n)
  }

  /** The rows of a time-ordered, non-empty flow: one per non-empty window from the first to the last capture time. */
  function FlowRows(key: FlowKey, s: seq<Packet>): seq<Row>
    requires |s| > 0
  {
    RowsFrom(key, s, s[0].time, 0, WindowCount(s[0].time, s[|s| - 1].time))
  }

  /** Emitting window `j`'s row, if any, keeps the rows emitted so far a prefix of all the flow's rows. */
  lemma EmitStep(key: FlowKey, s: seq<Packet>, start: int, j: nat, n: nat, rows: seq<Row>, emitted: seq<Row>)
    requires j < n
    requires rows + RowsFrom(key, s, start, j, n) == RowsFrom(key, s, start, 0, n)
    requires emitted == WindowRow(key, Window(s, start, j))
    ensures (rows + emitted) + RowsFrom(key, s, start, j + 1, n) == RowsFrom(key, s, start, 0, n)
  {
    assert RowsFrom(key, s, start, j, n) == emitted + RowsFrom(key, s, start, j + 1, n);
    assert (rows + emitted) + RowsFrom(key, s, start, j + 1, n) == rows + (emitted + RowsFrom(key, s, start, j + 1, n));
  }

  /** The row the builder emits for one window: none when it is empty, otherwise one carrying its features and its flow's key. */
  method EmitWindow(key: FlowKey, win: seq<Packet>) returns (emitted: seq<Row>)
    ensures emitted == WindowRow(key, win)
    ensures |emitted| == (if win == [] then 0 else 1)
  {
    if |win| >= 1 {
      var f := GetFeatures(win);
      emitted := [Row(f.value, key.category, key.proto, key.port)];
    } else {
      emitted := [];
    }
  }

  /** The window a cursor at bound `j` covers is window `j`. */
  lemma WindowAtCursor(s: seq<Packet>, start: int, j: nat, curr: int)
    requires curr == Edge(start, j)
    ensures Between(s, curr, curr + WindowWidth) == Window(s, start, j)
  {
    assert Edge(start, j + 1) == curr + WindowWidth;
  }

  /** Below the window count, the cursor lies before the last capture time exactly until all windows are emitted. */
  lemma CursorBound(start: int, end: int, j: nat)
    requires j <= WindowCount(start, end)
    ensures Edge(start, j) < end <==> j < WindowCount(start, end)
  {
  }

  /**
    Windows a time-ordered flow the way the dataset builder does: a cursor
    starting at the first capture time and advanced by five seconds while it
    lies before the last capture time, emitting a row for each non-empty
    window.
   */
  method WindowRows(key: FlowKey, s: seq<Packet>) returns (rows: seq<Row>)
    requires |s| > 0
    ensures rows == FlowRows(key, s)
  {
    var start, end := s[0].time, s[|s| - 1].time;
    ghost var n := WindowCount(start, end);
    rows := [];
    var curr := start;
    ghost var j: nat := 0;
    while curr < end
      invariant curr == Edge(start, j) && j <= n
      invariant rows + RowsFrom(key, s, start, j, n) == RowsFrom(key, s, start, 0, n)
      decreases end - curr
    {
      CursorBound(start, end, j);
      var win := Between(s, curr, curr + WindowWidth);
      WindowAtCursor(s, start, j, curr);
      var emitted := EmitWindow(key, win);
      EmitStep(key, s, start, j, n, rows, emitted);
      rows := rows + emitted;
      curr := curr + WindowWidth;
      j := j + 1;
    }
    CursorBound(start, end, j);
    assert rows + [] == rows;
  }

  /** The number of packets counted by a sequence of rows. */
  function RowPackets(rows: seq<Row>): nat
  {
    if rows == [] then 0 else rows[0].features.packetCount + RowPackets(rows[1..])
  }

  lemma {:induction false} RowPacketsAppend(a: seq<Row>, b: seq<Row>)
    ensures RowPackets(a + b) == RowPackets(a) + RowPackets(b)
    decreases |a|
  {
    if a == [] {
      assert a + b == b;
    } else {
      assert (a + b)[1..] == a[1..] + b;
      RowPacketsAppend(a[1..], b);
    }
  }

  /** Counted packet by packet, the windows [a, b) and [b, c) together hold what [a, c) holds. */
  lemma BetweenSplitMultiset(s: seq<Packet>, a: int, b: int, c: int)
    requires a <= b <= c
    ensures multiset(Between(s, a, b)) + multiset(Between(s, b, c)) == multiset(Between(s, a, c))
  {
    BetweenCount(s, a, b);
    BetweenCount(s, b, c);
    BetweenCount(s, a, c);
    var left, right := multiset(Between(s, a, b)) + multiset(Between(s, b, c)), multiset(Between(s, a, c));
    assert forall p :: left[p] == right[p];
  }


  /**
    Splitting a time range splits the packets in it: the two halves share
    no packet, and together they hold exactly the packets of the whole
    range, as many times as it holds them.
   */
  lemma {:induction false} BetweenSplit(s: seq<Packet>, a: int, b: int, c: int)
    requires a <= b <= c
    ensures forall p :: p in Between(s, a, b) ==> p !in Between(s, b, c)
    ensures multiset(Between(s, a, b)) + multiset(Between(s, b, c)) == multiset(Between(s, a, c))
    ensures |Between(s, a, b)| + |Between(s, b, c)| == |Between(s, a, c)|
  {
    BetweenSplitMultiset(s, a, b, c);
    assert |multiset(Between(s, a, b))| + |multiset(Between(s, b, c))| == |multiset(Between(s, a, c))|;
  }

  /** A range holding every capture time keeps every packet. */
  lemma {:induction false} BetweenAll(s: seq<Packet>, lo: int, hi: int)
    requires forall p :: p in s ==> lo <= p.time < hi
    ensures Between(s, lo, hi) == s
  {
    if s != [] {
      assert forall p :: p in s[1..] ==> p in s;
      BetweenAll(s[1..], lo, hi);
    }
  }

  /** A range holding no capture time keeps no packet. */
  lemma {:induction false} BetweenNone(s: seq<Packet>, lo: int, hi: int)
    requires forall p :: p in s ==> p.time < lo || hi <= p.time
    ensures Between(s, lo, hi) == []
  {
    if s != [] {
      assert forall p :: p in s[1..] ==> p in s;
      BetweenNone(s[1..], lo, hi);
    }
  }

  /** The row of a window counts exactly the window's packets. */
  lemma WindowRowPackets(key: FlowKey, win: seq<Packet>)
    ensures RowPackets(WindowRow(key, win)) == |win|
  {
    if win != [] {
      assert WindowRow(key, win)[1..] == [];
    }
  }

  /** The rows of windows j..n-1 count exactly the packets in those windows. */
  lemma {:induction false} RowsFromCount(key: FlowKey, s: seq<Packet>, start: int, j: nat, n: nat)
    requires j <= n
    ensures RowPackets(RowsFrom(key, s, start, j, n))
            == |Between(s, Edge(start, j), Edge(start, n))|
    decreases n - j
  {
    if j < n {
      var win, rest := Window(s, start, j), RowsFrom(key, s, start, j + 1, n);
      assert RowsFrom(key, s, start, j, n) == WindowRow(key, win) + rest;
      RowsFromCount(key, s, start, j + 1, n);
      WindowRowPackets(key, win);
      RowPacketsAppend(WindowRow(key, win), rest);
      assert Edge(start, j) <= Edge(start, j + 1) <= Edge(start, n);
      BetweenSplit(s, Edge(start, j), Edge(start, j + 1), Edge(start, n));
    } else {
      BetweenNone(s, Edge(start, j), Edge(start, n));
    }
  }

  /** Every row of a flow carries the flow's label, protocol and port, and counts at least one packet. */
  lemma {:induction false} RowsCarryKey(key: FlowKey, s: seq<Packet>, start: int, j: nat, n: nat)
    ensures forall r :: r in RowsFrom(key, s, start, j, n) ==>
              r.category == key.category && r.proto == key.proto && r.port == key.port
              && r.features.packetCount >= 1
    decreases n - j
  {
    if j < n {
      RowsCarryKey(key, s, start, j + 1, n);
    }
  }

  /** The windows of a time-ordered flow are time-ordered, so every row's duration is non-negative. */
  lemma {:induction false} RowsDurationNonNegative(key: FlowKey, s: seq<Packet>, start: int, j: nat, n: nat)
    requires SortedByTime(s)
    ensures forall r :: r in RowsFrom(key, s, start, j, n) ==> r.features.duration >= 0
    decreases n - j
  {
    if j < n {
      var win := Window(s, start, j);
      RowsDurationNonNegative(key, s, start, j + 1, n);
      assert RowsFrom(key, s, start, j, n) == WindowRow(key, win) + RowsFrom(key, s, start, j + 1, n);
      if win != [] {
        BetweenSorted(s, Edge(start, j), Edge(start, j + 1));
        FeatureValues(win);
      }
    }
  }

  lemma FirstAndLast(s: seq<Packet>)
    requires |s| > 0 && SortedByTime(s)
    ensures forall p :: p in s ==> s[0].time <= p.time <= s[|s| - 1].time
  {
    forall p | p in s
      ensures s[0].time <= p.time <= s[|s| - 1].time
    {
      var m :| 0 <= m < |s| && s[m] == p;
    }
  }

  /**
    The windows of a time-ordered flow are disjoint and cover the flow from
    its first capture time up to the last window bound: the rows count every
    packet once, except that the packets at the last capture time are left
    out exactly when the span from first to last capture is a multiple of
    five seconds.
   */
  lemma CountedPackets(key: FlowKey, s: seq<Packet>)
    requires |s| > 0 && SortedByTime(s)
    ensures var start, end := s[0].time, s[|s| - 1].time;
            RowPackets(FlowRows(key, s))
            == |s| - (if (end - start) % WindowWidth == 0 then |AtTime(s, end)| else 0)
  {
    var start, end := s[0].time, s[|s| - 1].time;
    var n := WindowCount(start, end);
    FirstAndLast(s);
    RowsFromCount(key, s, start, 0, n);
    LastBound(start, end);
    PacketsBeforeBound(s, start, end, Edge(start, n));
  }

  /** With every capture time in [start, end], a bound at or past `end` keeps every packet but those at `end` if it equals `end`. */
  lemma PacketsBeforeBound(s: seq<Packet>, start: int, end: int, bound: int)
    requires forall p :: p in s ==> start <= p.time <= end
    requires start <= end <= bound
    ensures |Between(s, start, bound)| == |s| - (if bound == end then |AtTime(s, end)| else 0)
  {
    BetweenAll(s, start, end + 1);
    if bound == end {
      BetweenSplit(s, start, end, end + 1);
    } else {
      BetweenSplit(s, start, end + 1, bound);
      BetweenNone(s, end + 1, bound);
    }
  }

  /** The last window bound reaches the last capture time exactly when the span is a multiple of five seconds. */
  lemma LastBound(start: int, end: int)
    requires start <= end
    ensures end <= Edge(start, WindowCount(start, end))
    ensures Edge(start, WindowCount(start, end)) == end <==> (end - start) % WindowWidth == 0
  {
    var d := end - start;
    var q, r := d / WindowWidth, d % WindowWidth;
    assert d == WindowWidth * q + r && 0 <= r < WindowWidth;
    if d > 0 {
      if r == 0 {
        assert (d + (WindowWidth - 1)) / WindowWidth == q;
      } else {
        assert d + (WindowWidth - 1) == WindowWidth * (q + 1) + (r - 1);
        assert (d + (WindowWidth - 1)) / WindowWidth == q + 1;
      }
    }
  }

  /** A flow whose packets all share one capture time, a single-packet flow included, yields no rows. */
  lemma SingleTimestampNoRows(key: FlowKey, s: seq<Packet>)
    requires |s| > 0
    requires forall p :: p in s ==> p.time == s[0].time
    ensures FlowRows(key, s) == []
  {
    assert s[|s| - 1] in s;
  }
}
